=== FILE: README.md ===
# dotts-docs: install script, terminal demo and version lookup in Dafny

The dotts documentation site is mostly static pages. Three places hold decision
logic, and this project models them as pure functions over strings and sequences:

- **The install script** served at `/install.sh`. This is a POSIX shell script
  held as a string literal in `src/app/install.sh/route.ts`. The model covers
  OS and architecture detection from `uname`, version resolution (`latest`
  triggers a lookup), the archive name and download URL, and the final PATH
  step. That step chooses a shell rc file and appends a PATH line to it once.
  The machine the script runs on is one value, `Installer.Env`. It holds the
  environment variables, the `uname` output, which commands exist, what the
  latest-release lookup printed, which download URLs work, and the existing
  files with their contents. `Installer.Run` maps that value to the first
  error message the script prints, or to what it installed plus the files
  after the PATH step.
- **The animated terminal** on the landing page
  (`src/components/animated-terminal.tsx`). The command is typed one
  character per timer tick. `renderCommand` cuts the typed text into up to
  five coloured segments. The install output appears once the whole command
  is typed.
- **Version lookup** (`src/lib/version.ts`). `getCurrentVersion`,
  `getVersionById` and `getVersions` work over the configured list of
  documentation versions. That list is a parameter here.

Modules: `Results` (Option/Result), `Text` (substring search), `ShellEnv`
(`${X:-default}`, `basename`), `Platform`, `Release`, `PathSetup`, `Grep`,
`Installer`, `Terminal` and `Versions`.

Some behaviour of the code is easy to miss, and the model keeps it:

- `${DOTTS_VERSION:-latest}` and `${DOTTS_DIR:-$HOME/.local/bin}` fall back
  to their defaults when the variable is set but empty, not only when it is
  unset. So the resolved version and the install directory are never empty.
- The script never initialises `SHELL_RC`. If the environment exports
  `SHELL_RC`, that file is used whenever the `case` on the shell name assigns
  nothing. This covers shells other than bash, zsh and fish, and bash with
  neither `.bashrc` nor `.bash_profile`. "Other shells get no rc file" holds
  only when `SHELL_RC` is unset or empty, and `PathSetup.AppendIffUnlisted`
  states it that way.
- A missing rc file makes `grep` fail, so the script appends, and the append
  creates the file. A zsh user without a `.zshrc` gets one.
- With an empty version list, `getCurrentVersion` returns `versions[0]`,
  which is `undefined`. The model returns `None`.

## Model

| member | source | states |
|---|---|---|
| Text.Contains | src/app/install.sh/route.ts:117-118 | the executable scan agrees with "the directory occurs somewhere in PATH" (an occurrence index exists) in both directions |
| ShellEnv.ParamOr | src/app/install.sh/route.ts:5-6 | `${X:-d}` gives the value when it is set and non-empty, otherwise the default; the result is empty only if both are |
| ShellEnv.Basename | src/app/install.sh/route.ts:120 | `basename` of a non-empty path is non-empty, and holds a '/' only when it is "/" itself |
| ShellEnv.BasenameOfName | src/app/install.sh/route.ts:120 | `basename` gives back a slash-free name, alone or after any directory, so `/bin/zsh` gives `zsh` |
| Platform.DetectOs | src/app/install.sh/route.ts:35-41 | `linux` exactly for kernel names starting with `Linux`; `darwin` exactly for names starting with `Darwin`; every other name fails with `Unsupported OS: <name>` |
| Platform.DetectOsRoundTrip | src/app/install.sh/route.ts:35-41 | each supported OS is recognised from its own kernel name, and every kernel string that detects as an OS extends that OS's kernel name |
| Platform.DetectArch | src/app/install.sh/route.ts:43-49 | `x86_64`/`amd64` give `amd64`; `aarch64`/`arm64` give `arm64`; the result is one of these two; any other name fails with `Unsupported architecture: <name>` |
| Platform.DetectArchNormalises | src/app/install.sh/route.ts:43-49 | a normalised name detects as itself, and detection succeeds on exactly the four listed machine names |
| Release.ResolveVersion | src/app/install.sh/route.ts:79-86 | any tag other than `latest` is used verbatim; `latest` becomes the looked-up tag; an empty lookup fails with `Could not determine latest version` |
| Release.VersionFromEnv | src/app/install.sh/route.ts:5 | an unset or empty `DOTTS_VERSION` resolves as `latest`; any other value except `latest` is used as given; a resolved version is never empty |
| Release.StripV | src/app/install.sh/route.ts:89 | `${VERSION#v}`: if the tag starts with 'v', then 'v' followed by the result is the tag; otherwise the tag comes back unchanged |
| Release.StripVRemovesOne | src/app/install.sh/route.ts:89 | exactly one leading 'v' is removed (`vv1` gives `v1`); the result is never more than one character shorter |
| Release.Filename | src/app/install.sh/route.ts:90 | the archive name is `dotts_`, then the version number, then `_<os>_<arch>.tar.gz`, at fixed positions |
| Release.FilenameRoundTrip | src/app/install.sh/route.ts:90 | `dotts_<num>_<os>_<arch>.tar.gz` reads back as the same version number and platform for all four supported platforms |
| Release.ParseFilenameSound | src/app/install.sh/route.ts:90 | every archive name that reads back was built from what it reads back as, so the name determines the version number |
| Release.Url | src/app/install.sh/route.ts:91 | the URL starts with the repository's download base, carries the tag right after it, and ends with '/' and the archive name |
| Release.UrlRoundTrip | src/app/install.sh/route.ts:91 | a download URL splits back into the tag and archive name it was built from |
| Release.DownloadLocation | src/app/install.sh/route.ts:89-91 | the URL carries the tag with its 'v', and the archive name inside it carries the tag with the 'v' removed |
| PathSetup.InstallDir | src/app/install.sh/route.ts:6 | the install directory is never empty; it is `DOTTS_DIR` as given when that is set and non-empty, and `$HOME/.local/bin` otherwise |
| PathSetup.ShellName | src/app/install.sh/route.ts:120 | the shell name is the `basename` of a set, non-empty `SHELL` and `sh` otherwise; it is never empty and holds a '/' only when it is "/" itself |
| PathSetup.ShellNameOf | src/app/install.sh/route.ts:120 | a `SHELL` of the form `DIR/NAME` (or `NAME`) with a slash-free NAME gives the shell name NAME, so `/usr/bin/fish` gives `fish` |
| PathSetup.RcFile | src/app/install.sh/route.ts:121-131 | bash prefers `.bashrc`, then `.bash_profile`, and picks only existing files; bash with neither file keeps the inherited `SHELL_RC`; zsh gets `.zshrc`; fish gets `.config/fish/config.fish`; other shells keep the inherited `SHELL_RC` |
| PathSetup.RcFileStable | src/app/install.sh/route.ts:121-131 | writing the chosen rc file never changes which file the case statement picks |
| PathSetup.PathLine | src/app/install.sh/route.ts:136-140 | the appended line is exactly `fish_add_path DIR` for fish and exactly `export PATH="DIR:$PATH"` (the directory before the old PATH) for every other shell |
| PathSetup.AppendPath | src/app/install.sh/route.ts:135-140 | the append keeps the old contents as a prefix and adds an empty line, the PATH line and a newline; the result names the directory |
| PathSetup.RcTargetWith | src/app/install.sh/route.ts:116-133 | for any "already listed" test: there is a target if and only if `DOTTS_NO_MODIFY_PATH` is empty, PATH lacks the directory, a file was chosen, and that file does not exist or the test rejects its contents; the target is the chosen file |
| PathSetup.GrepListed | src/app/install.sh/route.ts:133 | the script's `grep -q` test accepts every file holding a plain directory (see `Grep.PlainPattern`) literally |
| PathSetup.RcTarget | src/app/install.sh/route.ts:116-133 | an rc file is appended to if and only if modification is allowed, PATH lacks the directory, a file was chosen, and that file does not hold the directory literally |
| PathSetup.UpdateRcWith | src/app/install.sh/route.ts:116-145 | for any "already listed" test: with no target the files are unchanged; otherwise the target is added if missing, keeps its old contents as a prefix, and gains an empty line, the PATH line and a newline; every other file keeps exactly its contents |
| PathSetup.AppendTo | src/app/install.sh/route.ts:135-140 | appending to a file adds it if missing, keeps its old contents as a prefix followed by an empty line, the PATH line and a newline, and leaves every other file exactly as it was |
| PathSetup.UpdateRc | src/app/install.sh/route.ts:116-145 | with the literal test: only the target changes, every other existing file keeps exactly its contents, the target keeps its old contents as a prefix and then names the directory; a file already naming the directory is untouched |
| PathSetup.PathEditSkipped | src/app/install.sh/route.ts:116-118 | with `DOTTS_NO_MODIFY_PATH` set and non-empty, or with the directory already in PATH, no file changes |
| PathSetup.AppendIffUnlisted | src/app/install.sh/route.ts:120-140 | the chosen file gets the PATH line exactly when it does not yet name the directory; with no shell rc chosen, nothing changes |
| PathSetup.UpdateRcWithIdempotent | src/app/install.sh/route.ts:121-140 | under any test that accepts every text holding the directory literally, applying the PATH step to its own output changes nothing |
| PathSetup.UpdateRcIdempotent | src/app/install.sh/route.ts:133-140 | with the literal test, applying the PATH step to its own output changes nothing |
| PathSetup.GrepUpdateRcIdempotent | src/app/install.sh/route.ts:133-140 | with the script's own `grep` test, applying the PATH step to its own output changes nothing, for every plain directory: no line break, no `*`, `[`, `\`, `^` or `$`, no leading '-' |
| Grep.GrepQuiet | src/app/install.sh/route.ts:133 | `grep -q` succeeds exactly when the pattern, '.' matching any character of a line, matches at some position |
| Grep.LiteralIsMatched | src/app/install.sh/route.ts:133 | wherever a plain pattern (no line break, no `*`, `[`, `\`, `^` or `$`, no leading '-') occurs literally in a text, `grep -q` finds it |
| PathSetup.DotMatchesOtherDirectory | src/app/install.sh/route.ts:133 | for every plain home directory (no line break, no `*`, `[`, `\`, `^` or `$`, no leading '-'), a `.zshrc` naming `$HOME/xlocal/bin` is taken by grep as already listing `$HOME/.local/bin`; the files stay as they were, while the literal test appends and changes them |
| Installer.Run | src/app/install.sh/route.ts:57-156 | checks run in the script's order with its messages (curl, tar, OS, architecture, version); with the platform and version resolved, a URL that does not download fails with `Download failed: <that URL>`, an archive without the binary fails with `Binary not found in archive`, and otherwise the run succeeds; success means a supported platform, the resolved version, an archive name that parses back, and exactly the files the PATH step produces |
| Installer.Install | src/app/install.sh/route.ts:89-145 | the download fails with the computed URL, or the binary is missing, or the run succeeds, the three cases decided by the release map; success records the platform, version, archive name, URL, `$DOTTS_DIR/dotts` and the PATH step's files |
| Installer.RunTwice | src/app/install.sh/route.ts:116-145 | re-running on the files the first run left gives exactly the same outcome, so no second PATH line is added |
| Installer.RunLeavesFiles | src/app/install.sh/route.ts:116-118 | a successful run with `DOTTS_NO_MODIFY_PATH` set, or with the directory already in PATH, leaves every file unchanged |
| Terminal.Slice | src/components/animated-terminal.tsx:65-93 | `slice(start, end)` clamps both bounds to the length and gives the empty string when the end does not lie after the start |
| Terminal.Render | src/components/animated-terminal.tsx:53-99 | segment k exists iff the text is longer than its start (0, 4, 10, 42, 45); it has the k-th key and colour and covers the text from its start to the clamped next boundary; empty text gives no segments |
| Terminal.RenderJoins | src/components/animated-terminal.tsx:56-98 | the segments, concatenated in order, give exactly the typed text |
| Terminal.SegmentCountMonotone | src/components/animated-terminal.tsx:57-96 | longer typed text never has fewer segments |
| Terminal.CommandText | src/components/animated-terminal.tsx:5 | the command, written as its five tokens, is the literal `curl -fsSL https://dotts.4o4.sh/install.sh \| sh` |
| Terminal.SegmentsFollowTokens | src/components/animated-terminal.tsx:5 | each segment of a typed prefix of the command is a non-empty prefix of its token; the full command shows exactly the five tokens: `curl`, ` -fsSL`, the URL, the pipe and `sh` |
| Terminal.Tick | src/components/animated-terminal.tsx:21-31 | before the command is complete, a tick lengthens the text by one and keeps it a prefix of the command; after that it only turns the output on |
| Terminal.TickKeepsPrefix | src/components/animated-terminal.tsx:22-24 | from a prefix of the command, a tick appends the command's next character and stops at the full command; output turns on only once the full command is typed |
| Terminal.Animation | src/components/animated-terminal.tsx:21-31 | after k ticks from an empty terminal, the first min(k, 47) characters are typed, and the output shows iff k > 47 |
| Terminal.Animate | src/components/animated-terminal.tsx:21-31 | firing the timer until the output shows takes one tick per character and one more, and ends with the whole command typed |
| Versions.Find | src/lib/version.ts:21 | `find` returns None iff no element satisfies the test; otherwise it returns the first satisfying element in list order |
| Versions.FindIndex | src/lib/version.ts:34 | the index-by-index search agrees with `Find` on every list, and no earlier element satisfies the test |
| Versions.CurrentVersion | src/lib/version.ts:19-27 | the first `isLatest` version when there is one; otherwise the first version; the result is always a member of the list, and None only for an empty list |
| Versions.AllVersions | src/lib/version.ts:29-31 | `getVersions` returns the configured versions unchanged: same length, same version at every position |
| Versions.VersionById | src/lib/version.ts:33-35 | None iff no version has the id; otherwise the first version in list order with that id |
| Versions.LookupsReturnListed | src/lib/version.ts:29-31 | `getVersions` lists the configured versions unchanged, and both lookups return versions it lists |
| Versions.CurrentVersionById | src/lib/version.ts:33-35 | when ids are unique, looking up the current version's id finds the current version |

## Left out

- The HTTP `GET` handler and its response headers (route.ts:161-168). It returns the script text unchanged.
- Printing: the banner, the coloured `info`/`success`/`warn` lines and the closing instructions. `error` is kept as the failure message it prints before `exit 1`.
- `get_latest_version` (curl, grep and sed against the GitHub API). Its output is `Env.latestTag`, and the empty string means the lookup printed nothing.
- `check_cmd curl` and `check_cmd tar`. They are the booleans `Env.hasCurl` and `Env.hasTar`.
- The download itself, plus `mktemp`, `trap`, `tar`, `mkdir -p`, `mv` and `chmod`. A URL that downloads is a key of `Env.releases`, and its value says whether the archive holds `dotts`. With `set -e`, a failing `tar`, `mkdir` or `mv` ends the script without a message, and that case is not modelled.
- Writing `.config/fish/config.fish` when `.config/fish` does not exist. The redirection fails and `set -e` stops the script. The model treats the append as always succeeding.
- Grep.GrepQuiet: only '.' is treated as special. `*`, `[`, `^`, `$` and `\` in the directory are read literally. A directory that starts with '-' (read as a grep option) or holds a newline is not modelled. Every statement about the script's own grep (`Grep.LiteralIsMatched`, `PathSetup.GrepListed`, `PathSetup.GrepUpdateRcIdempotent`, `PathSetup.DotMatchesOtherDirectory`) is therefore made only for patterns satisfying `Grep.PlainPattern`; for `/opt/x*y` the real grep misses the line the script wrote and appends it again on every run.
- Installer.Install: its PATH step is `PathSetup.UpdateRc`, the corrected literal test, not grep's regular-expression reading at route.ts:133; the as-written step is `PathSetup.UpdateRcWith` with `PathSetup.GrepListed`.
- Installer.Run: uses the literal "already listed" test (`PathSetup.Listed`), the corrected behaviour, not grep's regular-expression reading that the script as written uses; the as-written PATH step is `PathSetup.UpdateRcWith` with `PathSetup.GrepListed`.
- PathSetup.AppendPath: the directory is written verbatim. When `sh` is dash, its `echo` expands backslash escapes (`\n`, `\t`, `\c`, ...), so a directory holding '\' is written altered; the idempotence lemmas (`PathSetup.UpdateRcIdempotent`, `PathSetup.GrepUpdateRcIdempotent`, `Installer.RunTwice`) do not describe such runs. Which shell `sh` is depends on the machine.
- Release.DownloadLocation: stated only for tags without '/'. A '/' in the tag makes splitting the URL at its last '/' ambiguous.
- The terminal's timers and their delays, the cursor blink interval, the CSS animation delays, the output lines' contents, and the clipboard copy. They are timing and UI concerns. `Terminal.Tick` is one firing of the typing timer.
- JavaScript strings are UTF-16. The command is ASCII, so characters and code units coincide.
- `src/components/copy-button.tsx` is a clipboard call plus a 2-second timer. `src/lib/layout.shared.tsx` is static navigation. `src/components/version-selector.tsx` is a dropdown whose only logic is `find(isLatest)` (`Versions.Find`). Unlike `getCurrentVersion`, it renders nothing when no version is flagged latest.
- The `version.json` import (`getVersionConfig`). The configuration is a parameter, and its `current` field is never read by the modelled code.

## Findings

| source | as written | input that shows it | evidently intended | confidence | as-written member | corrected member |
|---|---|---|---|---|---|---|
| src/app/install.sh/route.ts:133 | `grep -q "$DOTTS_DIR" "$SHELL_RC"` passes the directory as a basic regular expression, so each '.' in it matches any character | zsh, HOME=/h, DOTTS_DIR unset (so `/h/.local/bin`), PATH=/usr/bin, and `/h/.zshrc` containing `/h/xlocal/bin`: grep matches, so no PATH line is appended, although the file never names `/h/.local/bin` | test for the directory as literal text (`grep -qF`), so the line is appended | medium; not executed | PathSetup.DotMatchesOtherDirectory | PathSetup.RcTarget |

`Installer.Run` uses the corrected, literal test. The PATH step as written is
`PathSetup.UpdateRcWith` with `PathSetup.GrepListed`; by
`PathSetup.GrepUpdateRcIdempotent` it never appends the same line twice either,
for plain directories: no line break, none of `*`, `[`, `\`, `^`, `$`, and no
leading '-'. Other directories are outside this model of grep.

=== FILE: grep.dfy ===
/** `grep -q PATTERN FILE` as the install script calls it at line 133 of
    src/app/install.sh/route.ts: the directory is passed as a basic regular
    expression, not as a fixed string. This module models the one
    metacharacter a directory name commonly holds, '.', which matches any
    character of a line; the other metacharacters (`*`, `[`, `^`, `$`, `\`)
    are read literally here. */
module Grep {
  import Text

  /** The pattern matches at the start of `text`, within one line. */
  function MatchHere(pattern: string, text: string): (r: bool)
    ensures r ==> |pattern| <= |text|
    ensures r && '\n' !in pattern ==> forall k :: 0 <= k < |pattern| && pattern[k] != '.' ==> text[k] == pattern[k]
  {
    if pattern == [] then true
    else if text == [] then false
    else text[0] != '\n' && (pattern[0] == '.' || pattern[0] == text[0])
         && MatchHere(pattern[1..], text[1..])
  }

  /** Character by character: a match at the start of the text is a
      character of one line for every pattern position, equal to the
      pattern's character unless that one is '.'. */
  lemma {:induction false} MatchHereChars(pattern: string, text: string)
    ensures MatchHere(pattern, text) <==>
              && |pattern| <= |text|
              && forall k :: 0 <= k < |pattern| ==>
                   text[k] != '\n' && (pattern[k] == '.' || pattern[k] == text[k])
    decreases |pattern|
  {
    if pattern != [] && text != [] {
      MatchHereChars(pattern[1..], text[1..]);
      if |pattern| <= |text| {
        assert forall k :: 1 <= k < |pattern| ==> pattern[1..][k - 1] == pattern[k] && text[1..][k - 1] == text[k];
      }
    }
  }

  /** `grep -q`: succeeds when the pattern matches somewhere in the text. */
  function GrepQuiet(pattern: string, text: string): (r: bool)
    ensures r <==> exists i :: 0 <= i <= |text| && MatchHere(pattern, text[i..])
    decreases |text|
  {
    if MatchHere(pattern, text) then
      assert text[0..] == text;
      true
    else if |text| == 0 then
      false
    else
      var r := GrepQuiet(pattern, text[1..]);
      assert r ==> exists i :: 0 <= i <= |text| && MatchHere(pattern, text[i..]) by {
        if r {
          var i :| 0 <= i <= |text[1..]| && MatchHere(pattern, text[1..][i..]);
          assert text[1..][i..] == text[i + 1..];
        }
      }
      assert (exists i :: 0 <= i <= |text| && MatchHere(pattern, text[i..])) ==> r by {
        if exists i :: 0 <= i <= |text| && MatchHere(pattern, text[i..]) {
          var i :| 0 <= i <= |text| && MatchHere(pattern, text[i..]);
          assert i != 0;
          assert text[1..][i - 1..] == text[i..];
        }
      }
      r
  }

  /** A pattern without line breaks matches its own text. */
  lemma {:induction false} MatchHereLiteral(pattern: string, text: string)
    requires '\n' !in pattern && pattern <= text
    ensures MatchHere(pattern, text)
    decreases |pattern|
  {
    if pattern != [] {
      assert pattern[1..] <= text[1..];
      assert '\n' !in pattern[1..] by {
        forall c | c in pattern[1..] ensures c != '\n' {
          assert c in pattern;
        }
      }
      MatchHereLiteral(pattern[1..], text[1..]);
    }
  }

  /** A pattern this model reads as grep does: no line break, none of the
      basic regular expression metacharacters other than '.', and no
      leading '-' (which grep would take for an option). */
  predicate PlainPattern(pattern: string)
  {
    && '\n' !in pattern && '*' !in pattern && '[' !in pattern
    && '\\' !in pattern && '^' !in pattern && '$' !in pattern
    && !("-" <= pattern)
  }

  /** Wherever a plain pattern occurs literally, grep finds it. */
  lemma LiteralIsMatched(pattern: string, text: string)
    ensures PlainPattern(pattern) && Text.Contains(text, pattern) ==> GrepQuiet(pattern, text)
  {
    if PlainPattern(pattern) && Text.Contains(text, pattern) {
      var i :| Text.OccursAt(text, pattern, i);
      assert pattern <= text[i..];
      MatchHereLiteral(pattern, text[i..]);
    }
  }
}

=== FILE: installer.dfy ===
/** The install script's `main` (src/app/install.sh/route.ts, lines 57-156)
    as one function from the machine it runs on to the outcome. Everything
    the script learns from outside is a field of `Env`; printing, the
    temporary directory and the binary's bytes are not modelled. */
module Installer {
  import opened Results
  import ShellEnv
  import Platform
  import Release
  import PathSetup
  import Text

  datatype Env = Env(
    vars: ShellEnv.Vars,          // the process environment
    kernel: string,               // output of `uname -s`
    machine: string,              // output of `uname -m`
    hasCurl: bool,                // `check_cmd curl`
    hasTar: bool,                 // `check_cmd tar`
    latestTag: string,            // what the latest-release lookup printed
    releases: map<string, bool>,  // URLs that download; true when the archive holds `dotts`
    files: PathSetup.Files)       // the regular files the PATH step may test or touch

  datatype Installation = Installation(
    os: string, arch: string, version: string,
    filename: string, url: string,
    binary: string,               // where `dotts` was moved to
    files: PathSetup.Files)       // the files after the PATH step

  /** The script's run: the first failing check's message, or what it installed. */
  function Run(env: Env): (r: Result<Installation>)
    ensures !env.hasCurl ==> r == Err("curl is required but not installed")
    ensures env.hasCurl && !env.hasTar ==> r == Err("tar is required but not installed")
    ensures r.Ok? ==> && env.hasCurl && env.hasTar
                      && Platform.DetectOs(env.kernel) == Ok(r.value.os)
                      && Platform.DetectArch(env.machine) == Ok(r.value.arch)
                      && Release.VersionFromEnv(env.vars, env.latestTag) == Ok(r.value.version)
    ensures r.Ok? ==> Release.ParseFilename(r.value.filename)
                      == Some(Release.FileParts(Release.StripV(r.value.version), r.value.os, r.value.arch))
    ensures r.Ok? ==> r.value.url in env.releases && env.releases[r.value.url]
    ensures r.Ok? ==> r.value.url == Release.Url(r.value.version, r.value.filename)
    ensures r.Ok? ==> r.value.binary == PathSetup.InstallDir(env.vars) + "/dotts"
    ensures r.Ok? ==> r.value.files == PathSetup.UpdateRc(env.vars, env.files, PathSetup.InstallDir(env.vars))
    ensures env.hasCurl && env.hasTar && Platform.DetectOs(env.kernel).Err? ==>
              r == Err("Unsupported OS: " + env.kernel)
    ensures env.hasCurl && env.hasTar && Platform.DetectOs(env.kernel).Ok?
            && Platform.DetectArch(env.machine).Err? ==>
              r == Err("Unsupported architecture: " + env.machine)
    ensures env.hasCurl && env.hasTar && Platform.DetectOs(env.kernel).Ok?
            && Platform.DetectArch(env.machine).Ok?
            && Release.VersionFromEnv(env.vars, env.latestTag).Err? ==>
              r == Err("Could not determine latest version")
    ensures env.hasCurl && env.hasTar && Platform.DetectOs(env.kernel).Ok?
            && Platform.DetectArch(env.machine).Ok?
            && Release.VersionFromEnv(env.vars, env.latestTag).Ok? ==>
              var version := Release.VersionFromEnv(env.vars, env.latestTag).value;
              var url := Release.Url(version, Release.Filename(Release.StripV(version),
                                                               Platform.DetectOs(env.kernel).value,
                                                               Platform.DetectArch(env.machine).value));
              && (url !in env.releases ==> r == Err("Download failed: " + url))
              && (url in env.releases && !env.releases[url] ==> r == Err("Binary not found in archive"))
              && (url in env.releases && env.releases[url] ==> r.Ok?)
    ensures r.Err? ==> || r.message in {"curl is required but not installed",
                                         "tar is required but not installed",
                                         "Could not determine latest version",
                                         "Binary not found in archive"}
                        || "Unsupported OS: " <= r.message
                        || "Unsupported architecture: " <= r.message
                        || "Download failed: " + Release.DownloadBase <= r.message
  {
    if !env.hasCurl then Err("curl is required but not installed")
    else if !env.hasTar then Err("tar is required but not installed")
    else
      var os :- Platform.DetectOs(env.kernel);
      var arch :- Platform.DetectArch(env.machine);
      var version :- Release.VersionFromEnv(env.vars, env.latestTag);
      Install(env, os, arch, version)
  }

  /** The steps after the version is known: download the release archive,
      check that it holds the binary, move it in place, then the PATH step. */
  function Install(env: Env, os: string, arch: string, version: string): (r: Result<Installation>)
    requires Platform.SupportedOs(os) && Platform.SupportedArch(arch)
    ensures var url := Release.Url(version, Release.Filename(Release.StripV(version), os, arch));
            && (url !in env.releases ==> r == Err("Download failed: " + url))
            && (url in env.releases && !env.releases[url] ==> r == Err("Binary not found in archive"))
            && (r.Ok? <==> url in env.releases && env.releases[url])
    ensures r.Err? ==> r.message == "Binary not found in archive"
                       || "Download failed: " + Release.DownloadBase <= r.message
    ensures r.Ok? ==> && r.value.os == os && r.value.arch == arch && r.value.version == version
                      && Release.ParseFilename(r.value.filename)
                         == Some(Release.FileParts(Release.StripV(version), os, arch))
                      && r.value.url == Release.Url(version, r.value.filename)
                      && r.value.binary == PathSetup.InstallDir(env.vars) + "/dotts"
                      && r.value.files == PathSetup.UpdateRc(env.vars, env.files, PathSetup.InstallDir(env.vars))
  {
    var filename := Release.Filename(Release.StripV(version), os, arch);
    var url := Release.Url(version, filename);
    if url !in env.releases then
      PrefixAfter("Download failed: ", Release.DownloadBase, url);
      Err("Download failed: " + url)
    else if !env.releases[url] then Err("Binary not found in archive")
    else
      var dir := PathSetup.InstallDir(env.vars);
      Release.FilenameRoundTrip(Release.StripV(version), os, arch);
      Ok(Installation(os, arch, version, filename, url, dir + "/dotts",
                      PathSetup.UpdateRc(env.vars, env.files, dir)))
  }

  /** Running the installer a second time on the files the first run left
      behind installs the same release and appends nothing more: the first
      run's outcome is reproduced exactly. */
  lemma RunTwice(env: Env)
    ensures Run(env).Ok? ==> Run(env.(files := Run(env).value.files)) == Run(env)
  {
    var dir := PathSetup.InstallDir(env.vars);
    PathSetup.UpdateRcIdempotent(env.vars, env.files, dir);
  }

  /** A successful run with `DOTTS_NO_MODIFY_PATH` set or the directory
      already on PATH leaves every file as it was. */
  lemma RunLeavesFiles(env: Env)
    requires Run(env).Ok?
    requires ShellEnv.Lookup(env.vars, "DOTTS_NO_MODIFY_PATH") != ""
             || Text.Contains(ShellEnv.Lookup(env.vars, "PATH"), PathSetup.InstallDir(env.vars))
    ensures Run(env).value.files == env.files
  {
    PathSetup.PathEditSkipped(env.vars, env.files, PathSetup.InstallDir(env.vars));
  }

  lemma PrefixAfter(a: string, b: string, c: string)
    requires b <= c
    ensures a + b <= a + c
  {
    assert (a + c)[..|a + b|] == a + b;
  }
}

=== FILE: path_setup.dfy ===
/** The optional PATH edit at the end of the install script
    (src/app/install.sh/route.ts, lines 6 and 116-145): which shell rc file
    it appends to, when, and what it appends. The file system is the map
    from the path of each existing regular file to its contents. */
module PathSetup {
  import opened Results
  import ShellEnv
  import Text
  import Grep

  type Files = map<string, string>

  /** `DOTTS_DIR="${DOTTS_DIR:-$HOME/.local/bin}"`; never empty. */
  function InstallDir(vars: ShellEnv.Vars): (r: string)
    ensures r != ""
    ensures ShellEnv.Lookup(vars, "DOTTS_DIR") != "" ==> r == vars["DOTTS_DIR"]
    ensures ShellEnv.Lookup(vars, "DOTTS_DIR") == "" ==> r == ShellEnv.Lookup(vars, "HOME") + "/.local/bin"
  {
    ShellEnv.ParamOr(vars, "DOTTS_DIR", ShellEnv.Lookup(vars, "HOME") + "/.local/bin")
  }

  /** `SHELL_NAME=$(basename "${SHELL:-sh}")`. */
  function ShellName(vars: ShellEnv.Vars): (r: string)
    ensures r != ""
    ensures '/' in r ==> r == "/"
    ensures ShellEnv.Lookup(vars, "SHELL") == "" ==> r == "sh"
    ensures ShellEnv.Lookup(vars, "SHELL") != "" ==> r == ShellEnv.Basename(vars["SHELL"])
  {
    ShellEnv.NoSlashUnchanged("sh");
    ShellEnv.Basename(ShellEnv.ParamOr(vars, "SHELL", "sh"))
  }

  /** A shell path `DIR/NAME` or `NAME` names the shell NAME. */
  lemma ShellNameOf(vars: ShellEnv.Vars, dir: string, name: string)
    requires name != "" && '/' !in name
    ensures "SHELL" in vars && vars["SHELL"] == dir + "/" + name ==> ShellName(vars) == name
    ensures "SHELL" in vars && vars["SHELL"] == name ==> ShellName(vars) == name
  {
    ShellEnv.BasenameOfName(dir, name);
  }

  /** The value of `SHELL_RC` after the `case "$SHELL_NAME"` block. The script
      never clears `SHELL_RC`, so when no branch assigns it the value it
      inherited from the environment (`inherited`, empty when unset) stays. */
  function RcFile(shellName: string, home: string, files: Files, inherited: string): (r: string)
    ensures shellName == "bash" ==> r in files || r == inherited
    ensures shellName == "bash" && home + "/.bashrc" in files ==> r == home + "/.bashrc"
    ensures shellName == "bash" && home + "/.bashrc" !in files && home + "/.bash_profile" in files
            ==> r == home + "/.bash_profile"
    ensures shellName == "bash" && home + "/.bashrc" !in files && home + "/.bash_profile" !in files
            ==> r == inherited
    ensures shellName == "zsh" ==> r == home + "/.zshrc"
    ensures shellName == "fish" ==> r == home + "/.config/fish/config.fish"
    ensures shellName !in {"bash", "zsh", "fish"} ==> r == inherited
  {
    match shellName
    case "bash" =>
      if home + "/.bashrc" in files then home + "/.bashrc"
      else if home + "/.bash_profile" in files then home + "/.bash_profile"
      else inherited
    case "zsh" => home + "/.zshrc"
    case "fish" => home + "/.config/fish/config.fish"
    case _ => inherited
  }

  /** Once a file has been chosen and written, the choice does not change:
      writing to the chosen file never makes another candidate preferable. */
  lemma RcFileStable(shellName: string, home: string, files: Files, inherited: string, contents: string)
    ensures var p := RcFile(shellName, home, files, inherited);
            RcFile(shellName, home, files[p := contents], inherited) == p
  {
    var p := RcFile(shellName, home, files, inherited);
    assert home + "/.bashrc" != home + "/.bash_profile" by {
      assert |home + "/.bashrc"| != |home + "/.bash_profile"|;
    }
  }

  /** The line appended to the rc file: `fish_add_path DIR` for fish,
      `export PATH="DIR:$PATH"` otherwise. Either names the directory. */
  function PathLine(shellName: string, dir: string): (r: string)
    ensures Text.Contains(r, dir)
    ensures shellName == "fish" ==> "fish_add_path " <= r && r[|"fish_add_path "|..] == dir
    ensures shellName != "fish" ==> "export PATH=\"" <= r && r[|"export PATH=\""|..] == dir + ":$PATH\""
  {
    var pre := if shellName == "fish" then "fish_add_path " else "export PATH=\"";
    var post := if shellName == "fish" then "" else ":$PATH\"";
    Text.ContainsSelf(dir);
    Text.ContainsInConcat(pre, dir, post, dir);
    pre + dir + post
  }

  /** `echo "" >> RC` then `echo LINE >> RC`: the old contents are kept and
      followed by an empty line and the PATH line. */
  function AppendPath(contents: string, shellName: string, dir: string): (r: string)
    ensures contents <= r
    ensures r[|contents|..] == "\n" + PathLine(shellName, dir) + "\n"
    ensures Text.Contains(r, dir)
  {
    var line := PathLine(shellName, dir);
    AppendedAfter(contents, "\n", line, "\n");
    Text.ContainsInConcat(contents + "\n", line, "\n", dir);
    contents + "\n" + line + "\n"
  }

  lemma AppendedAfter(a: string, b: string, c: string, d: string)
    ensures a <= a + b + c + d
    ensures (a + b + c + d)[|a|..] == b + c + d
  {
    assert a + b + c + d == a + (b + c + d);
  }

  /** The rc file the script appends to, given the test it uses for "this
      file already mentions the directory" (`listed(contents, dir)`); None
      when it appends nothing. A file that does not exist is never listed. */
  function RcTargetWith(vars: ShellEnv.Vars, files: Files, dir: string,
                        listed: (string, string) -> bool): (r: Option<string>)
    ensures var rc := RcFile(ShellName(vars), ShellEnv.Lookup(vars, "HOME"), files,
                             ShellEnv.Lookup(vars, "SHELL_RC"));
            r.Some? <==> && ShellEnv.Lookup(vars, "DOTTS_NO_MODIFY_PATH") == ""
                         && !Text.Contains(ShellEnv.Lookup(vars, "PATH"), dir)
                         && rc != ""
                         && !(rc in files && listed(files[rc], dir))
    ensures r.Some? ==> r.value == RcFile(ShellName(vars), ShellEnv.Lookup(vars, "HOME"), files,
                                          ShellEnv.Lookup(vars, "SHELL_RC"))
  {
    if ShellEnv.ParamOr(vars, "DOTTS_NO_MODIFY_PATH", "") != "" then None
    else if Text.Contains(ShellEnv.Lookup(vars, "PATH"), dir) then None
    else
      var rc := RcFile(ShellName(vars), ShellEnv.Lookup(vars, "HOME"), files,
                       ShellEnv.Lookup(vars, "SHELL_RC"));
      if rc != "" && !(rc in files && listed(files[rc], dir)) then Some(rc) else None
  }

  /** The intended test: the file holds the directory as literal text. */
  function Listed(contents: string, dir: string): bool
  {
    Text.Contains(contents, dir)
  }

  /** The test as the script writes it, `grep -q "$DOTTS_DIR" "$SHELL_RC"`:
      the directory is read as a regular expression. A plain directory is
      found wherever it occurs literally. */
  function GrepListed(contents: string, dir: string): (r: bool)
    ensures Grep.PlainPattern(dir) && Listed(contents, dir) ==> r
  {
    Grep.LiteralIsMatched(dir, contents);
    Grep.GrepQuiet(dir, contents)
  }

  /** The rc file the PATH step appends to: exactly when modification is
      allowed, PATH lacks the directory, a file was chosen and that file
      does not already hold the directory as literal text. */
  function RcTarget(vars: ShellEnv.Vars, files: Files, dir: string): (r: Option<string>)
    ensures var rc := RcFile(ShellName(vars), ShellEnv.Lookup(vars, "HOME"), files,
                             ShellEnv.Lookup(vars, "SHELL_RC"));
            r.Some? <==> && ShellEnv.Lookup(vars, "DOTTS_NO_MODIFY_PATH") == ""
                         && !Text.Contains(ShellEnv.Lookup(vars, "PATH"), dir)
                         && rc != ""
                         && !(rc in files && Text.Contains(files[rc], dir))
    ensures r.Some? ==> r.value == RcFile(ShellName(vars), ShellEnv.Lookup(vars, "HOME"), files,
                                          ShellEnv.Lookup(vars, "SHELL_RC"))
  {
    RcTargetWith(vars, files, dir, Listed)
  }

  /** The file system after the PATH step, given the "already mentioned"
      test: the chosen rc file, if any, gets an empty line and the PATH line
      appended (and is created if missing); every other file is unchanged. */
  function UpdateRcWith(vars: ShellEnv.Vars, files: Files, dir: string,
                        listed: (string, string) -> bool): (r: Files)
    ensures RcTargetWith(vars, files, dir, listed).None? ==> r == files
    ensures RcTargetWith(vars, files, dir, listed).Some? ==>
              var p := RcTargetWith(vars, files, dir, listed).value;
              var current := if p in files then files[p] else "";
              && r.Keys == files.Keys + {p}
              && current <= r[p]
              && r[p][|current|..] == "\n" + PathLine(ShellName(vars), dir) + "\n"
              && Text.Contains(r[p], dir)
    ensures forall q :: q in files ==> q in r && files[q] <= r[q]
    ensures forall q :: q in files && (RcTargetWith(vars, files, dir, listed).None?
                                       || q != RcTargetWith(vars, files, dir, listed).value)
                        ==> r[q] == files[q]
  {
    match RcTargetWith(vars, files, dir, listed)
    case None => files
    case Some(p) => AppendTo(files, p, ShellName(vars), dir)
  }

  /** The file system after the PATH line is appended to `p`, which is
      created if missing. */
  function AppendTo(files: Files, p: string, shellName: string, dir: string): (r: Files)
    ensures var current := if p in files then files[p] else "";
            && r.Keys == files.Keys + {p}
            && current <= r[p]
            && r[p][|current|..] == "\n" + PathLine(shellName, dir) + "\n"
            && Text.Contains(r[p], dir)
    ensures forall q :: q in files ==> q in r && files[q] <= r[q]
    ensures forall q :: q in files && q != p ==> r[q] == files[q]
  {
    var current := if p in files then files[p] else "";
    files[p := AppendPath(current, shellName, dir)]
  }

  /** The file system after the PATH step with the literal test. */
  function UpdateRc(vars: ShellEnv.Vars, files: Files, dir: string): (r: Files)
    ensures RcTarget(vars, files, dir).None? ==> r == files
    ensures RcTarget(vars, files, dir).Some? ==>
              var p := RcTarget(vars, files, dir).value;
              && r.Keys == files.Keys + {p}
              && Text.Contains(r[p], dir)
              && (p in files ==> files[p] <= r[p])
    ensures forall q :: q in files ==> q in r && files[q] <= r[q]
    ensures forall q :: q in files && (RcTarget(vars, files, dir).None? || q != RcTarget(vars, files, dir).value)
                        ==> r[q] == files[q]
    ensures forall q :: q in files && Text.Contains(files[q], dir) ==> r[q] == files[q]
  {
    UpdateRcWith(vars, files, dir, Listed)
  }

  /** No rc file is touched when `DOTTS_NO_MODIFY_PATH` is set and non-empty,
      or when PATH already holds the directory. */
  lemma PathEditSkipped(vars: ShellEnv.Vars, files: Files, dir: string)
    requires ShellEnv.Lookup(vars, "DOTTS_NO_MODIFY_PATH") != ""
             || Text.Contains(ShellEnv.Lookup(vars, "PATH"), dir)
    ensures UpdateRc(vars, files, dir) == files
  {
  }

  /** With modification allowed and PATH lacking the directory, the chosen rc
      file gets exactly one PATH line appended if and only if it does not
      yet mention the directory; shells other than bash, zsh and fish (with
      no `SHELL_RC` inherited) get no rc file. */
  lemma AppendIffUnlisted(vars: ShellEnv.Vars, files: Files, dir: string)
    requires ShellEnv.Lookup(vars, "DOTTS_NO_MODIFY_PATH") == ""
    requires !Text.Contains(ShellEnv.Lookup(vars, "PATH"), dir)
    ensures var rc := RcFile(ShellName(vars), ShellEnv.Lookup(vars, "HOME"), files,
                             ShellEnv.Lookup(vars, "SHELL_RC"));
            && (rc == "" ==> UpdateRc(vars, files, dir) == files)
            && ((rc != "" && rc in files && Text.Contains(files[rc], dir))
                  ==> UpdateRc(vars, files, dir) == files)
            && ((rc != "" && !(rc in files && Text.Contains(files[rc], dir)))
                  ==> UpdateRc(vars, files, dir)
                      == files[rc := AppendPath(if rc in files then files[rc] else "", ShellName(vars), dir)])
    ensures ShellName(vars) !in {"bash", "zsh", "fish"} && ShellEnv.Lookup(vars, "SHELL_RC") == ""
            ==> UpdateRc(vars, files, dir) == files
  {
    var rc := RcFile(ShellName(vars), ShellEnv.Lookup(vars, "HOME"), files,
                     ShellEnv.Lookup(vars, "SHELL_RC"));
    if rc != "" && !(rc in files && Text.Contains(files[rc], dir)) {
      assert RcTargetWith(vars, files, dir, Listed) == Some(rc);
    } else {
      assert RcTargetWith(vars, files, dir, Listed) == None;
    }
  }

  /** The PATH step is idempotent under any test that counts a file holding
      the directory literally as listed: the appended line names the
      directory and the second run picks the same rc file. */
  lemma UpdateRcWithIdempotent(vars: ShellEnv.Vars, files: Files, dir: string,
                               listed: (string, string) -> bool)
    requires forall c :: Text.Contains(c, dir) ==> listed(c, dir)
    ensures var once := UpdateRcWith(vars, files, dir, listed);
            UpdateRcWith(vars, once, dir, listed) == once
  {
    var once := UpdateRcWith(vars, files, dir, listed);
    match RcTargetWith(vars, files, dir, listed)
    case None =>
    case Some(p) =>
      var home, inherited := ShellEnv.Lookup(vars, "HOME"), ShellEnv.Lookup(vars, "SHELL_RC");
      RcFileStable(ShellName(vars), home, files, inherited, once[p]);
      assert once == files[p := once[p]];
      assert listed(once[p], dir);
      assert RcTargetWith(vars, once, dir, listed).None?;
  }

  /** The PATH step with the literal test is idempotent. */
  lemma UpdateRcIdempotent(vars: ShellEnv.Vars, files: Files, dir: string)
    ensures UpdateRc(vars, UpdateRc(vars, files, dir), dir) == UpdateRc(vars, files, dir)
  {
    UpdateRcWithIdempotent(vars, files, dir, Listed);
  }

  /** The PATH step as the script writes it, with grep's test, is idempotent
      too for a plain directory: grep finds every line that holds it
      literally. */
  lemma GrepUpdateRcIdempotent(vars: ShellEnv.Vars, files: Files, dir: string)
    requires Grep.PlainPattern(dir)
    ensures var once := UpdateRcWith(vars, files, dir, GrepListed);
            UpdateRcWith(vars, once, dir, GrepListed) == once
  {
    forall c | Text.Contains(c, dir) ensures GrepListed(c, dir) {
      Grep.LiteralIsMatched(dir, c);
    }
    UpdateRcWithIdempotent(vars, files, dir, GrepListed);
  }

  /** A zsh user whose `.zshrc` names `$HOME/xlocal/bin` and who installs to
      the default `$HOME/.local/bin`: grep reads '.' as any character, so
      the script as written takes the directory for already listed and
      appends nothing, although the file never mentions it; the literal
      test appends the PATH line. */
  lemma DotMatchesOtherDirectory(home: string)
    requires Grep.PlainPattern(home)
    ensures var vars := ExampleVars(home);
            var rc := home + "/.zshrc";
            var files := map[rc := home + "/xlocal/bin"];
            var dir := InstallDir(vars);
            && dir == home + "/.local/bin"
            && !Text.Contains(files[rc], dir)
            && RcTargetWith(vars, files, dir, GrepListed) == None
            && UpdateRcWith(vars, files, dir, GrepListed) == files
            && RcTarget(vars, files, dir) == Some(rc)
            && UpdateRc(vars, files, dir) != files
  {
    ExampleFacts(home);
    NotListedLiterally(home);
    GrepSkips(home);
    LiteralAppends(home);
  }

  /** In the example, neither the rc file nor PATH holds the directory. */
  lemma NotListedLiterally(home: string)
    ensures !Text.Contains(home + "/xlocal/bin", home + "/.local/bin")
    ensures !Text.Contains("/usr/bin", home + "/.local/bin")
  {
    var contents, dir := home + "/xlocal/bin", home + "/.local/bin";
    assert contents[|home| + 1] != dir[|home| + 1];
    Text.ContainsSameLength(contents, dir);
    Text.ContainsSameLength("/usr/bin", dir);
  }

  lemma GrepSkips(home: string)
    requires '\n' !in home
    ensures var files := map[home + "/.zshrc" := home + "/xlocal/bin"];
            && RcTargetWith(ExampleVars(home), files, home + "/.local/bin", GrepListed) == None
            && UpdateRcWith(ExampleVars(home), files, home + "/.local/bin", GrepListed) == files
  {
    ExampleFacts(home);
    DotMatches(home);
  }

  lemma LiteralAppends(home: string)
    ensures var files := map[home + "/.zshrc" := home + "/xlocal/bin"];
            && RcTarget(ExampleVars(home), files, home + "/.local/bin") == Some(home + "/.zshrc")
            && UpdateRc(ExampleVars(home), files, home + "/.local/bin") != files
  {
    var vars, rc, dir := ExampleVars(home), home + "/.zshrc", home + "/.local/bin";
    var files := map[rc := home + "/xlocal/bin"];
    ExampleFacts(home);
    NotListedLiterally(home);
    assert RcTarget(vars, files, dir) == Some(rc);
    assert Text.Contains(UpdateRc(vars, files, dir)[rc], dir);
  }

  lemma DotMatches(home: string)
    requires '\n' !in home
    ensures GrepListed(home + "/xlocal/bin", home + "/.local/bin")
  {
    var contents, dir := home + "/xlocal/bin", home + "/.local/bin";
    forall k | 0 <= k < |dir|
      ensures contents[k] != '\n' && (dir[k] == '.' || dir[k] == contents[k])
    {
      if k < |home| {
        assert contents[k] == home[k] == dir[k];
        assert home[k] in home;
      }
    }
    Grep.MatchHereChars(dir, contents);
    assert contents[0..] == contents;
  }

  function ExampleVars(home: string): ShellEnv.Vars
  {
    map["HOME" := home, "SHELL" := "/bin" + "/" + "zsh", "PATH" := "/usr/bin"]
  }

  lemma ExampleFacts(home: string)
    ensures InstallDir(ExampleVars(home)) == home + "/.local/bin"
    ensures ShellName(ExampleVars(home)) == "zsh"
    ensures ShellEnv.Lookup(ExampleVars(home), "DOTTS_NO_MODIFY_PATH") == ""
    ensures ShellEnv.Lookup(ExampleVars(home), "SHELL_RC") == ""
    ensures ShellEnv.Lookup(ExampleVars(home), "PATH") == "/usr/bin"
    ensures ShellEnv.Lookup(ExampleVars(home), "HOME") == home
  {
    ExampleShell(home);
  }

  lemma ExampleShell(home: string)
    ensures ShellName(ExampleVars(home)) == "zsh"
  {
    ShellEnv.BasenameOfName("/bin", "zsh");
  }
}

=== FILE: platform.dfy ===
/** `detect_os` and `detect_arch` of the install script: the mapping from
    `uname -s` / `uname -m` output to the platform names used in release
    archive names (src/app/install.sh/route.ts, lines 35-49). */
module Platform {
  import opened Results

  predicate SupportedOs(os: string)
  {
    os == "linux" || os == "darwin"
  }

  predicate SupportedArch(arch: string)
  {
    arch == "amd64" || arch == "arm64"
  }

  /** `case "$(uname -s)" in Linux*) ... Darwin*) ... *) error`. */
  function DetectOs(kernel: string): (r: Result<string>)
    ensures r.Ok? ==> SupportedOs(r.value)
    ensures r == Ok("linux") <==> "Linux" <= kernel
    ensures r == Ok("darwin") <==> "Darwin" <= kernel
    ensures r.Err? <==> !("Linux" <= kernel) && !("Darwin" <= kernel)
    ensures r.Err? ==> r.message == "Unsupported OS: " + kernel
  {
    if "Linux" <= kernel then
      assert kernel[0] == 'L';
      Ok("linux")
    else if "Darwin" <= kernel then Ok("darwin")
    else Err("Unsupported OS: " + kernel)
  }

  /** The kernel name `uname -s` prints on a supported OS. */
  function KernelName(os: string): string
    requires SupportedOs(os)
  {
    if os == "linux" then "Linux" else "Darwin"
  }

  /** Detection recognises each supported OS from its kernel name, and every
      kernel string that detects as `os` extends that kernel name. */
  lemma DetectOsRoundTrip(os: string, kernel: string)
    requires SupportedOs(os)
    ensures DetectOs(KernelName(os)) == Ok(os)
    ensures DetectOs(kernel) == Ok(os) ==> KernelName(os) <= kernel
  {
  }

  /** `case "$(uname -m)" in x86_64|amd64) ... aarch64|arm64) ... *) error`. */
  function DetectArch(machine: string): (r: Result<string>)
    ensures r.Ok? ==> SupportedArch(r.value)
    ensures r == Ok("amd64") <==> machine == "x86_64" || machine == "amd64"
    ensures r == Ok("arm64") <==> machine == "aarch64" || machine == "arm64"
    ensures r.Err? ==> r.message == "Unsupported architecture: " + machine
  {
    if machine == "x86_64" || machine == "amd64" then Ok("amd64")
    else if machine == "aarch64" || machine == "arm64" then Ok("arm64")
    else Err("Unsupported architecture: " + machine)
  }

  /** Normalisation is idempotent: a normalised name detects as itself, and
      detection succeeds on exactly four machine names. */
  lemma DetectArchNormalises(arch: string, machine: string)
    ensures SupportedArch(arch) ==> DetectArch(arch) == Ok(arch)
    ensures DetectArch(machine).Ok? <==> machine in {"x86_64", "amd64", "aarch64", "arm64"}
  {
  }
}

=== FILE: release.dfy ===
/** Version resolution and the release download location of the install
    script (src/app/install.sh/route.ts, lines 4-5 and 79-91). */
module Release {
  import opened Results
  import ShellEnv
  import Platform

  /** `DOTTS_REPO` is assigned, not defaulted: the environment cannot change it. */
  const Repo := "arthur404dev/dotts"

  const DownloadBase := "https://github.com/" + Repo + "/releases/download/"

  /** `VERSION="$DOTTS_VERSION"` then the `latest` lookup. `latest` is the
      tag the release lookup printed, the empty string when it printed nothing. */
  function ResolveVersion(requested: string, latest: string): (r: Result<string>)
    ensures requested != "latest" ==> r == Ok(requested)
    ensures requested == "latest" ==> (r.Ok? <==> latest != "")
    ensures requested == "latest" && r.Ok? ==> r.value == latest
    ensures r.Err? ==> r.message == "Could not determine latest version"
  {
    if requested == "latest" then
      if latest == "" then Err("Could not determine latest version") else Ok(latest)
    else Ok(requested)
  }

  /** The version the script works with, from its environment: `DOTTS_VERSION`
      defaults to `latest` when unset or empty, so the result is never empty. */
  function VersionFromEnv(vars: ShellEnv.Vars, latest: string): (r: Result<string>)
    ensures ShellEnv.Lookup(vars, "DOTTS_VERSION") in {"", "latest"} ==> r == ResolveVersion("latest", latest)
    ensures r.Ok? ==> r.value != ""
    ensures ShellEnv.Lookup(vars, "DOTTS_VERSION") !in {"", "latest"}
            ==> r == Ok(vars["DOTTS_VERSION"])
  {
    ResolveVersion(ShellEnv.ParamOr(vars, "DOTTS_VERSION", "latest"), latest)
  }

  /** `${VERSION#v}`: removes one leading 'v', if there is one. */
  function StripV(tag: string): (r: string)
    ensures "v" <= tag ==> "v" + r == tag
    ensures !("v" <= tag) ==> r == tag
  {
    if "v" <= tag then tag[1..] else tag
  }

  /** Exactly one 'v' goes, however many the tag starts with. */
  lemma StripVRemovesOne(rest: string)
    ensures StripV("v" + rest) == rest
    ensures |StripV(rest)| >= |rest| - 1
  {
    assert "v" <= "v" + rest;
  }

  datatype FileParts = FileParts(versionNum: string, os: string, arch: string)

  /** `FILENAME="dotts_${VERSION_NUM}_${OS}_${ARCH}.tar.gz"`. */
  function Filename(versionNum: string, os: string, arch: string): (r: string)
    ensures |r| == 6 + |versionNum| + |Tail(os, arch)|
    ensures r[..6] == "dotts_" && r[6..6 + |versionNum|] == versionNum
    ensures r[6 + |versionNum|..] == "_" + os + "_" + arch + ".tar.gz"
  {
    "dotts_" + versionNum + Tail(os, arch)
  }

  function Tail(os: string, arch: string): string
  {
    "_" + os + "_" + arch + ".tar.gz"
  }

  /** `rest` with the given platform tail removed, if it ends in it. */
  function DropTail(rest: string, os: string, arch: string): Option<string>
  {
    var t := Tail(os, arch);
    if |t| <= |rest| && rest[|rest| - |t|..] == t then Some(rest[..|rest| - |t|]) else None
  }

  /** Reads an archive name back into its version number and platform; the
      platform is one of the four the script can produce. */
  function ParseFilename(f: string): (r: Option<FileParts>)
    ensures r.Some? ==> Platform.SupportedOs(r.value.os) && Platform.SupportedArch(r.value.arch)
  {
    if !("dotts_" <= f) then None
    else
      var rest := f[6..];
      match DropTail(rest, "linux", "amd64")
      case Some(v) => Some(FileParts(v, "linux", "amd64"))
      case None =>
        match DropTail(rest, "linux", "arm64")
        case Some(v) => Some(FileParts(v, "linux", "arm64"))
        case None =>
          match DropTail(rest, "darwin", "amd64")
          case Some(v) => Some(FileParts(v, "darwin", "amd64"))
          case None =>
            match DropTail(rest, "darwin", "arm64")
            case Some(v) => Some(FileParts(v, "darwin", "arm64"))
            case None => None
  }

  lemma DropTailOf(v: string, os: string, arch: string, os': string, arch': string)
    requires Platform.SupportedOs(os) && Platform.SupportedArch(arch)
    requires Platform.SupportedOs(os') && Platform.SupportedArch(arch')
    ensures DropTail(v + Tail(os, arch), os', arch')
            == if os == os' && arch == arch' then Some(v) else None
  {
    var rest := v + Tail(os, arch);
    var t := Tail(os', arch');
    if os == os' && arch == arch' {
      assert rest[|rest| - |t|..] == t;
      assert rest[..|rest| - |t|] == v;
    } else if |t| <= |rest| && rest[|rest| - |t|..] == t {
      SameTail(v, os, arch, os', arch');
      assert false;
    }
  }

  /** The platforms' tails differ in the second letter of the architecture
      or in the last letter of the OS, at fixed distances from the end. */
  lemma TailLetters(os: string, arch: string)
    requires Platform.SupportedOs(os) && Platform.SupportedArch(arch)
    ensures var t := Tail(os, arch);
            |t| == |os| + 14 && t[|t| - 11] == arch[1] && t[|t| - 14] == os[|os| - 1]
  {
  }

  lemma SameTail(v: string, os: string, arch: string, os': string, arch': string)
    requires Platform.SupportedOs(os) && Platform.SupportedArch(arch)
    requires Platform.SupportedOs(os') && Platform.SupportedArch(arch')
    requires var rest, t := v + Tail(os, arch), Tail(os', arch');
             |t| <= |rest| && rest[|rest| - |t|..] == t
    ensures os == os' && arch == arch'
  {
    var own, t := Tail(os, arch), Tail(os', arch');
    var rest := v + own;
    TailLetters(os, arch);
    TailLetters(os', arch');
    assert rest[|rest| - 11] == own[|own| - 11];
    assert rest[|rest| - 14] == own[|own| - 14];
    var s := rest[|rest| - |t|..];
    assert s[|s| - 11] == rest[|rest| - 11];
    assert s[|s| - 14] == rest[|rest| - 14];
  }

  /** Building an archive name and reading it back gives the version number
      and platform it was built from. */
  lemma FilenameRoundTrip(versionNum: string, os: string, arch: string)
    requires Platform.SupportedOs(os) && Platform.SupportedArch(arch)
    ensures ParseFilename(Filename(versionNum, os, arch)) == Some(FileParts(versionNum, os, arch))
  {
    var name := Filename(versionNum, os, arch);
    assert "dotts_" <= name;
    assert name[6..] == versionNum + Tail(os, arch);
    DropTailOf(versionNum, os, arch, "linux", "amd64");
    DropTailOf(versionNum, os, arch, "linux", "arm64");
    DropTailOf(versionNum, os, arch, "darwin", "amd64");
    DropTailOf(versionNum, os, arch, "darwin", "arm64");
  }

  /** Every name that reads back was built by `Filename` from what it reads
      back as: the name carries the version number unambiguously. */
  lemma ParseFilenameSound(f: string)
    requires ParseFilename(f).Some?
    ensures var p := ParseFilename(f).value; Filename(p.versionNum, p.os, p.arch) == f
  {
    var p := ParseFilename(f).value;
    ParseFilenameParts(f);
    DropTailSome(f[6..], p.os, p.arch);
    assert f == "dotts_" + f[6..];
  }

  /** A name that reads back has the prefix and the tail of what it reads
      back as. */
  lemma ParseFilenameParts(f: string)
    requires ParseFilename(f).Some?
    ensures "dotts_" <= f
    ensures var p := ParseFilename(f).value; DropTail(f[6..], p.os, p.arch) == Some(p.versionNum)
  {
  }

  lemma DropTailSome(rest: string, os: string, arch: string)
    requires DropTail(rest, os, arch).Some?
    ensures rest == DropTail(rest, os, arch).value + Tail(os, arch)
  {
    var t := Tail(os, arch);
    assert rest == rest[..|rest| - |t|] + rest[|rest| - |t|..];
  }

  /** `URL="https://github.com/$DOTTS_REPO/releases/download/$VERSION/$FILENAME"`. */
  function Url(version: string, filename: string): (r: string)
    ensures DownloadBase <= r
    ensures |r| == |DownloadBase| + |version| + 1 + |filename|
    ensures r[|DownloadBase|..|DownloadBase| + |version|] == version
    ensures r[|DownloadBase| + |version|..] == "/" + filename
  {
    DownloadBase + version + "/" + filename
  }

  datatype UrlParts = UrlParts(version: string, filename: string)

  /** Splits a download URL of the repository at its last '/'. */
  function ParseUrl(url: string): (r: Option<UrlParts>)
    ensures r.Some? ==> '/' !in r.value.filename
  {
    if !(DownloadBase <= url) then None
    else
      var rest := url[|DownloadBase|..];
      var name := ShellEnv.AfterLastSlash(rest);
      if |name| < |rest| then Some(UrlParts(rest[..|rest| - |name| - 1], name)) else None
  }

  /** A download URL reads back as the tag and archive name it was built from
      (archive names hold no '/'). */
  lemma UrlRoundTrip(version: string, filename: string)
    requires '/' !in filename
    ensures ParseUrl(Url(version, filename)) == Some(UrlParts(version, filename))
  {
    var url := Url(version, filename);
    assert DownloadBase <= url;
    var rest := url[|DownloadBase|..];
    assert rest == version + "/" + filename;
    ShellEnv.AfterLastSlashOfJoin(version, filename);
    assert rest[..|rest| - |filename| - 1] == version;
  }

  /** The release the script downloads: the URL keeps the tag as resolved,
      'v' included, while the archive name inside it carries the tag with
      its leading 'v' removed. */
  lemma {:induction false} DownloadLocation(tag: string, os: string, arch: string)
    requires Platform.SupportedOs(os) && Platform.SupportedArch(arch)
    requires '/' !in tag
    ensures var f := Filename(StripV(tag), os, arch);
            && ParseUrl(Url(tag, f)) == Some(UrlParts(tag, f))
            && ParseFilename(f) == Some(FileParts(StripV(tag), os, arch))
  {
    var num := StripV(tag);
    assert '/' !in num by {
      if "v" <= tag {
        assert tag == "v" + num;
        forall c | c in num ensures c != '/' {
          assert c in tag;
        }
      }
    }
    var f := Filename(num, os, arch);
    assert '/' !in f;
    UrlRoundTrip(tag, f);
    FilenameRoundTrip(num, os, arch);
  }
}

=== FILE: results.dfy ===
/** Failure-compatible wrappers shared by the modules of this model: `Option`
    for lookups that may find nothing (JavaScript's `undefined`), and `Result`
    for the install script's `error "..."` exits, carrying the message it prints. */
module Results {

  datatype Option<+T> = None | Some(value: T)

  datatype Result<+T> = Ok(value: T) | Err(message: string) {

    predicate IsFailure() {
      Err?
    }

    function PropagateFailure<U>(): Result<U>
      requires Err?
    {
      Err(message)
    }

    function Extract(): T
      requires Ok?
    {
      value
    }
  }
}

=== FILE: shell_env.dfy ===
/** The pieces of POSIX shell semantics the install script's decisions rest
    on: variable expansion with and without a default, and `basename`. The
    process environment is a map from variable name to value; a name absent
    from the map is unset. */
module ShellEnv {

  type Vars = map<string, string>

  /** `$NAME`: the value, or the empty string when unset. */
  function Lookup(vars: Vars, name: string): (r: string)
    ensures name !in vars ==> r == ""
    ensures name in vars ==> r == vars[name]
  {
    if name in vars then vars[name] else ""
  }

  /** `${NAME:-default}`: the value when set and non-empty, else the default. */
  function ParamOr(vars: Vars, name: string, default: string): (r: string)
    ensures Lookup(vars, name) != "" ==> r == vars[name]
    ensures Lookup(vars, name) == "" ==> r == default
    ensures r == "" <==> Lookup(vars, name) == "" && default == ""
  {
    var v := Lookup(vars, name);
    if v != "" then v else default
  }

  /** The string with every trailing '/' removed. */
  function TrimTrailingSlashes(s: string): (r: string)
    ensures r <= s
    ensures r == [] || r[|r| - 1] != '/'
    ensures forall k :: |r| <= k < |s| ==> s[k] == '/'
    decreases |s|
  {
    if |s| > 0 && s[|s| - 1] == '/' then TrimTrailingSlashes(s[..|s| - 1]) else s
  }

  /** The longest suffix of `s` that holds no '/'. */
  function AfterLastSlash(s: string): (r: string)
    ensures |r| <= |s| && r == s[|s| - |r|..]
    ensures '/' !in r
    ensures |r| < |s| ==> s[|s| - |r| - 1] == '/'
    decreases |s|
  {
    if |s| == 0 || s[|s| - 1] == '/' then []
    else AfterLastSlash(s[..|s| - 1]) + [s[|s| - 1]]
  }

  /** POSIX `basename` without a suffix operand: trailing slashes are
      dropped, then everything up to the last remaining '/'; a string of
      slashes only yields "/". The empty string yields the empty string. */
  function Basename(path: string): (r: string)
    ensures path != "" ==> r != ""
    ensures '/' in r ==> r == "/"
  {
    if path == "" then ""
    else
      var t := TrimTrailingSlashes(path);
      if t == "" then "/" else AfterLastSlash(t)
  }

  /** `basename` of a slash-free name is the name itself, and `basename`
      of `dir/name` is `name`, whatever the directory. */
  lemma BasenameOfName(dir: string, name: string)
    requires name != "" && '/' !in name
    ensures Basename(name) == name
    ensures Basename(dir + "/" + name) == name
  {
    NoSlashUnchanged(name);
    var p := dir + "/" + name;
    assert p[..|p| - 1] == dir + "/" + name[..|name| - 1];
    assert TrimTrailingSlashes(p) == p;
    AfterLastSlashOfJoin(dir, name);
  }

  lemma NoSlashUnchanged(s: string)
    requires '/' !in s
    ensures TrimTrailingSlashes(s) == s
    ensures AfterLastSlash(s) == s
  {
  }

  lemma {:induction false} AfterLastSlashOfJoin(dir: string, name: string)
    requires '/' !in name
    ensures AfterLastSlash(dir + "/" + name) == name
    decreases |name|
  {
    var p := dir + "/" + name;
    if name != [] {
      var init := name[..|name| - 1];
      assert p[..|p| - 1] == dir + "/" + init;
      assert '/' !in init by {
        forall c | c in init ensures c != '/' {
          assert c in name;
        }
      }
      AfterLastSlashOfJoin(dir, init);
      assert name == init + [name[|name| - 1]];
    }
  }
}

=== FILE: terminal.dfy ===
/** The landing page's animated terminal (src/components/animated-terminal.tsx):
    the command is typed one character per timer tick, the typed text is
    shown split into coloured segments, and the install output appears
    once the whole command is on screen. Timers, the cursor blink and the
    clipboard are not modelled; each tick is one firing of the typing timer. */
module Terminal {

  /** The command typed, `curl -fsSL https://dotts.4o4.sh/install.sh | sh`,
      spelled as the concatenation of its five tokens (defined below). */
  const Command: string := Tokens[0] + Tokens[1] + Tokens[2] + Tokens[3] + Tokens[4]

  /** The colour class of a segment. */
  datatype Tone = FdPrimary | FdMutedForeground | FdForeground

  datatype Segment = Segment(key: string, tone: Tone, text: string)

  /** Where each of the five segments starts. */
  const Bounds: seq<nat> := [0, 4, 10, 42, 45]
  const Keys: seq<string> := ["curl", "flag", "url", "pipe", "sh"]
  const Tones: seq<Tone> := [FdPrimary, FdMutedForeground, FdForeground, FdMutedForeground, FdPrimary]

  /** The tokens of `Command` the segments are meant to colour. */
  const Tokens: seq<string> := ["curl", " -fsSL", " https://dotts.4o4.sh/install.sh", " | ", "sh"]

  function Min(a: nat, b: nat): nat
  {
    if a <= b then a else b
  }

  /** Where segment `k` of a text of length `n` ends: the next segment's
      start clamped to `n`; the last segment runs to the end. */
  function SegmentEnd(k: nat, n: nat): nat
    requires k < 5
  {
    if k < 4 then Min(Bounds[k + 1], n) else n
  }

  /** `String.prototype.slice(start, end)` for non-negative arguments: both
      are clamped to the length, and an empty string results when the end
      does not lie after the start. */
  function Slice(s: string, start: nat, end: nat): (r: string)
    ensures start <= end <= |s| ==> r == s[start..end]
    ensures start <= |s| <= end ==> r == s[start..]
    ensures end <= start || |s| <= start ==> r == []
  {
    var b, e := Min(start, |s|), Min(end, |s|);
    if e <= b then [] else s[b..e]
  }

  /** `renderCommand`: no segments for empty text; otherwise a segment for
      each boundary the text extends past. */
  function Render(typed: string): (r: seq<Segment>)
    ensures |r| <= 5
    ensures forall k :: 0 <= k < 5 ==> (k < |r| <==> Bounds[k] < |typed|)
    ensures forall k :: 0 <= k < |r| ==>
              && Bounds[k] <= SegmentEnd(k, |typed|) <= |typed|
              && r[k] == Segment(Keys[k], Tones[k], typed[Bounds[k]..SegmentEnd(k, |typed|)])
  {
    if |typed| == 0 then []
    else
      var n := |typed|;
      var curlEnd, flagEnd, urlEnd, pipeEnd := Min(4, n), Min(10, n), Min(42, n), Min(45, n);
      (if curlEnd > 0 then [Segment("curl", FdPrimary, Slice(typed, 0, curlEnd))] else [])
      + (if n > 4 then [Segment("flag", FdMutedForeground, Slice(typed, 4, flagEnd))] else [])
      + (if n > 10 then [Segment("url", FdForeground, Slice(typed, 10, urlEnd))] else [])
      + (if n > 42 then [Segment("pipe", FdMutedForeground, Slice(typed, 42, pipeEnd))] else [])
      + (if n > 45 then [Segment("sh", FdPrimary, typed[45..])] else [])
  }

  /** The text shown by a sequence of segments, in order. */
  function Join(segments: seq<Segment>): string
  {
    if segments == [] then [] else Join(segments[..|segments| - 1]) + segments[|segments| - 1].text
  }

  /** The segments concatenate back to exactly the typed text. */
  lemma {:induction false} RenderJoins(typed: string)
    ensures Join(Render(typed)) == typed
  {
    var r := Render(typed);
    var n := |typed|;
    if n > 0 {
      JoinPrefix(typed, |r|);
      assert r[..|r|] == r;
      if |r| < 5 {
        assert Bounds[|r|] >= n;
      }
    }
  }

  /** The first `k` segments show the text up to where segment `k - 1` ends. */
  lemma {:induction false} JoinPrefix(typed: string, k: nat)
    requires 0 < k <= |Render(typed)|
    ensures SegmentEnd(k - 1, |typed|) <= |typed|
    ensures Join(Render(typed)[..k]) == typed[..SegmentEnd(k - 1, |typed|)]
  {
    var r := Render(typed);
    var n := |typed|;
    assert r[..k][..k - 1] == r[..k - 1];
    assert Join(r[..k]) == Join(r[..k - 1]) + r[k - 1].text;
    assert r[k - 1].text == typed[Bounds[k - 1]..SegmentEnd(k - 1, n)];
    if k == 1 {
      assert r[..0] == [];
    } else {
      JoinPrefix(typed, k - 1);
      assert SegmentEnd(k - 2, n) == Bounds[k - 1];
      SplitSlice(typed, Bounds[k - 1], SegmentEnd(k - 1, n));
    }
  }

  lemma SplitSlice(s: string, a: nat, b: nat)
    requires a <= b <= |s|
    ensures s[..a] + s[a..b] == s[..b]
  {
  }

  /** Typing more never removes a segment. */
  lemma SegmentCountMonotone(shorter: string, longer: string)
    requires |shorter| <= |longer|
    ensures |Render(shorter)| <= |Render(longer)|
  {
  }

  /** The boundaries sit on token boundaries: at every stage of typing the
      command, each segment is a non-empty prefix of its token, and the
      fully typed command shows exactly the five tokens. */
  lemma SegmentsFollowTokens(k: nat)
    requires k <= |Command|
    ensures var r := Render(Command[..k]);
            forall i :: 0 <= i < |r| ==> r[i].text != [] && r[i].text <= Tokens[i]
    ensures forall i :: 0 <= i < 5 ==> Render(Command)[i].text == Tokens[i]
  {
    forall i | 0 <= i < |Render(Command[..k])|
      ensures Render(Command[..k])[i].text != [] && Render(Command[..k])[i].text <= Tokens[i]
    {
      SegmentFollowsToken(k, i);
    }
    forall i | 0 <= i < 5
      ensures Render(Command)[i].text == Tokens[i]
    {
      assert Command[..|Command|] == Command;
      SegmentFollowsToken(|Command|, i);
    }
  }

  lemma SegmentFollowsToken(k: nat, i: nat)
    requires k <= |Command| && i < |Render(Command[..k])|
    ensures Render(Command[..k])[i].text != [] && Render(Command[..k])[i].text <= Tokens[i]
    ensures k == |Command| ==> i < 5 && Render(Command[..k])[i].text == Tokens[i]
  {
    TokenAt(i);
    assert |Command[..k]| == k;
    SliceOfPrefix(Command, k, Bounds[i], SegmentEnd(i, k), SegmentEnd(i, |Command|));
  }

  /** A non-empty slice of a prefix of `s` is a non-empty prefix of any
      longer slice of `s` from the same start. */
  lemma SliceOfPrefix(s: string, k: nat, a: nat, b: nat, e: nat)
    requires a < b <= k <= |s| && b <= e <= |s|
    ensures s[..k][a..b] != [] && s[..k][a..b] <= s[a..e]
    ensures b == e ==> s[..k][a..b] == s[a..e]
  {
    assert s[..k][a..b] == s[a..b];
  }

  lemma TokenAt(i: nat)
    requires i < 5
    ensures |Command| == 47
    ensures Command[Bounds[i]..SegmentEnd(i, |Command|)] == Tokens[i]
  {
    CommandTokens(i);
    assert Bounds == [0, 4, 10, 42, 45];
    assert SegmentEnd(i, 47) == [4, 10, 42, 45, 47][i];
  }

  /** The command is the component's literal command string. */
  lemma CommandText()
    ensures Command == CommandLiteral
    ensures Command == "curl -fsSL https://dotts.4o4.sh/install.sh | sh"
  {
    var text := CommandLiteral;
    TextTokens();
    assert text == text[0..4] + text[4..10] + text[10..42] + text[42..45] + text[45..47];
  }

  /** The command string as the component writes it. */
  const CommandLiteral := "curl -fsSL https://dotts.4o4.sh/install.sh | sh"

  /** Cut at the segment boundaries, the literal gives the five tokens. */
  lemma TextTokens()
    ensures |CommandLiteral| == 47
    ensures CommandLiteral[0..4] == Tokens[0] && CommandLiteral[4..10] == Tokens[1]
    ensures CommandLiteral[10..42] == Tokens[2]
    ensures CommandLiteral[42..45] == Tokens[3] && CommandLiteral[45..47] == Tokens[4]
  {
    TextToken0();
    TextToken1();
    TextToken2();
    TextToken3();
    TextToken4();
  }

  lemma TextToken0()
    ensures |CommandLiteral| == 47 && CommandLiteral[0..4] == Tokens[0]
  {
    forall j | 0 <= j < 4 ensures CommandLiteral[j] == Tokens[0][j] {
    }
  }

  lemma TextToken1()
    ensures |CommandLiteral| == 47 && CommandLiteral[4..10] == Tokens[1]
  {
    forall j | 4 <= j < 10 ensures CommandLiteral[j] == Tokens[1][j - 4] {
    }
  }

  lemma TextToken2()
    ensures |CommandLiteral| == 47 && CommandLiteral[10..42] == Tokens[2]
  {
    forall j | 10 <= j < 42 ensures CommandLiteral[j] == Tokens[2][j - 10] {
    }
  }

  lemma TextToken3()
    ensures |CommandLiteral| == 47 && CommandLiteral[42..45] == Tokens[3]
  {
  }

  lemma TextToken4()
    ensures |CommandLiteral| == 47 && CommandLiteral[45..47] == Tokens[4]
  {
  }

  lemma CommandTokens(i: nat)
    requires i < 5
    ensures |Command| == 47
    ensures Command[[0, 4, 10, 42, 45, 47][i]..[0, 4, 10, 42, 45, 47][i + 1]] == Tokens[i]
  {
    var t0, t1, t2, t3, t4 := Tokens[0], Tokens[1], Tokens[2], Tokens[3], Tokens[4];
    var c := t0 + t1 + t2 + t3 + t4;
    assert |t0| == 4 && |t1| == 6 && |t2| == 32 && |t3| == 3 && |t4| == 2;
    if i == 0 {
      assert c[0..4] == t0;
    } else if i == 1 {
      assert c[4..10] == t1;
    } else if i == 2 {
      assert c[10..42] == t2;
    } else if i == 3 {
      assert c[42..45] == t3;
    } else {
      assert c[45..47] == t4;
    }
  }

  /** The component's state: the typed prefix and whether the install
      output is shown. */
  datatype State = State(typed: string, showOutput: bool)

  const Initial := State("", false)

  /** One firing of the effect's timer: type the next character of the
      command, or, once it is complete, show the output. */
  function Tick(s: State): (r: State)
    ensures |s.typed| < |Command| ==> |r.typed| == |s.typed| + 1 && r.typed <= Command
    ensures |s.typed| < |Command| ==> r.showOutput == s.showOutput
    ensures |s.typed| >= |Command| ==> r.typed == s.typed && r.showOutput
  {
    if |s.typed| < |Command| then State(Slice(Command, 0, |s.typed| + 1), s.showOutput)
    else State(s.typed, true)
  }

  /** From a prefix of the command, a tick extends it by the next character
      until the command is complete, and the output is switched on only
      when the whole command has been typed. */
  lemma TickKeepsPrefix(s: State)
    requires s.typed <= Command
    ensures s.typed <= Tick(s).typed <= Command
    ensures |s.typed| < |Command| ==> Tick(s).typed == s.typed + [Command[|s.typed|]]
    ensures Tick(s).showOutput && !s.showOutput ==> s.typed == Command
  {
  }

  function Ticks(s: State, k: nat): State
    decreases k
  {
    if k == 0 then s else Ticks(Tick(s), k - 1)
  }

  /** After `k` ticks from the empty terminal, the first `k` characters of the
      command are typed, and the output shows exactly when more ticks than
      the command has characters have fired. */
  lemma {:induction false} Animation(k: nat)
    ensures Ticks(Initial, k) == State(Command[..Min(k, |Command|)], k > |Command|)
  {
    AnimationFrom(0, k);
  }

  lemma {:induction false} AnimationFrom(j: nat, k: nat)
    requires j <= |Command|
    ensures Ticks(State(Command[..j], false), k)
            == State(Command[..Min(j + k, |Command|)], j + k > |Command|)
    decreases k
  {
    if k > 0 {
      if j < |Command| {
        assert Tick(State(Command[..j], false)) == State(Command[..j + 1], false);
        AnimationFrom(j + 1, k - 1);
      } else {
        var full := State(Command, true);
        assert Tick(State(Command[..j], false)) == full;
        StaysComplete(k - 1);
      }
    }
  }

  lemma {:induction false} StaysComplete(k: nat)
    ensures Ticks(State(Command, true), k) == State(Command, true)
  {
    if k > 0 {
      StaysComplete(k - 1);
    }
  }

  /** Fires the timer until the output shows; it takes one tick per
      character and one more. */
  method Animate() returns (s: State, ticks: nat)
    ensures s.showOutput && s.typed == Command
    ensures ticks == |Command| + 1
  {
    s, ticks := Initial, 0;
    while !s.showOutput
      invariant || (ticks <= |Command| && s == State(Command[..ticks], false))
                || (ticks == |Command| + 1 && s == State(Command, true))
      decreases |Command| + 1 - ticks
    {
      s := Tick(s);
      ticks := ticks + 1;
    }
  }
}

=== FILE: text.dfy ===
/** Substring search over strings, the one string primitive the install
    script relies on: `case "$PATH" in *"$DOTTS_DIR"*)` and the rc-file check. */
module Text {

  /** `sub` occurs in `s` starting at position `i`. */
  ghost predicate OccursAt(s: string, sub: string, i: int)
  {
    0 <= i && i + |sub| <= |s| && s[i..i + |sub|] == sub
  }

  ghost predicate IsSubstring(sub: string, s: string)
  {
    exists i :: OccursAt(s, sub, i)
  }

  lemma OccursAtShift(s: string, sub: string, i: int)
    requires |s| > 0 && 0 <= i
    ensures OccursAt(s, sub, i + 1) <==> OccursAt(s[1..], sub, i)
  {
    if i + 1 + |sub| <= |s| {
      assert s[i + 1..i + 1 + |sub|] == s[1..][i..i + |sub|];
    }
  }

  /** Executable substring test, scanning left to right. */
  function Contains(s: string, sub: string): (r: bool)
    ensures r <==> IsSubstring(sub, s)
    decreases |s|
  {
    if sub <= s then
      assert OccursAt(s, sub, 0);
      true
    else if |s| == 0 then
      false
    else
      var r := Contains(s[1..], sub);
      assert r ==> IsSubstring(sub, s) by {
        if r {
          var i :| OccursAt(s[1..], sub, i);
          OccursAtShift(s, sub, i);
        }
      }
      assert IsSubstring(sub, s) ==> r by {
        if IsSubstring(sub, s) {
          var i :| OccursAt(s, sub, i);
          assert i != 0;
          OccursAtShift(s, sub, i - 1);
        }
      }
      r
  }

  /** Text that occurs in a part occurs in any concatenation containing it. */
  lemma ContainsInConcat(a: string, b: string, c: string, sub: string)
    requires Contains(b, sub)
    ensures Contains(a + b + c, sub)
  {
    var i :| OccursAt(b, sub, i);
    assert (a + b + c)[|a| + i..|a| + i + |sub|] == b[i..i + |sub|];
    assert OccursAt(a + b + c, sub, |a| + i);
  }

  /** Every string occurs in itself. */
  lemma ContainsSelf(s: string)
    ensures Contains(s, s)
  {
    assert OccursAt(s, s, 0);
  }

  /** Text can only occur in a string at least as long; in one of the same
      length, only as the whole string. */
  lemma ContainsSameLength(s: string, sub: string)
    requires |sub| >= |s|
    ensures Contains(s, sub) <==> s == sub
  {
    if Contains(s, sub) {
      var i :| OccursAt(s, sub, i);
    }
    if s == sub {
      ContainsSelf(s);
    }
  }
}

=== FILE: versions.dfy ===
/** Documentation versions (src/lib/version.ts). The configuration that the
    site imports from version.json is a parameter here. */
module Versions {
  import opened Results

  /** `label` is a Dafny keyword, so the display label is `labelText`. */
  datatype Version = Version(id: string, labelText: string, path: string, isLatest: bool)

  datatype VersionConfig = VersionConfig(current: string, versions: seq<Version>)

  /** `Array.prototype.find`: the first element satisfying `p`, in list
      order, or None (JavaScript's `undefined`) when there is none. */
  function Find<T>(xs: seq<T>, p: T -> bool): (r: Option<T>)
    ensures r.None? <==> forall i :: 0 <= i < |xs| ==> !p(xs[i])
    ensures r.Some? ==> exists i :: 0 <= i < |xs| && xs[i] == r.value && p(xs[i])
                                    && forall j :: 0 <= j < i ==> !p(xs[j])
  {
    if xs == [] then None
    else if p(xs[0]) then Some(xs[0])
    else
      var r := Find(xs[1..], p);
      assert forall i :: 1 <= i < |xs| ==> xs[1..][i - 1] == xs[i];
      assert r.Some? ==> exists i :: 0 <= i < |xs| && xs[i] == r.value && p(xs[i])
                                     && forall j :: 0 <= j < i ==> !p(xs[j]) by {
        if r.Some? {
          var i :| 0 <= i < |xs[1..]| && xs[1..][i] == r.value && p(xs[1..][i])
                   && forall j :: 0 <= j < i ==> !p(xs[1..][j]);
          assert forall j :: 1 <= j < i + 1 ==> !p(xs[j]) by {
            forall j | 1 <= j < i + 1 ensures !p(xs[j]) {
              assert xs[j] == xs[1..][j - 1];
            }
          }
        }
      }
      r
  }

  /** The same search as a loop over indices, the way the engine runs it;
      it agrees with `Find` on every list. */
  method FindIndex<T>(xs: seq<T>, p: T -> bool) returns (k: int)
    ensures -1 <= k < |xs|
    ensures k == -1 <==> Find(xs, p).None?
    ensures k >= 0 ==> Find(xs, p) == Some(xs[k]) && p(xs[k])
    ensures k >= 0 ==> forall j :: 0 <= j < k ==> !p(xs[j])
  {
    k := 0;
    while k < |xs|
      invariant 0 <= k <= |xs|
      invariant forall j :: 0 <= j < k ==> !p(xs[j])
    {
      if p(xs[k]) {
        FindFirst(xs, p, k);
        return;
      }
      k := k + 1;
    }
    k := -1;
  }

  /** Whatever index holds the first element satisfying `p`, `Find` returns
      that element. */
  lemma FindFirst<T>(xs: seq<T>, p: T -> bool, k: nat)
    requires k < |xs| && p(xs[k])
    requires forall j :: 0 <= j < k ==> !p(xs[j])
    ensures Find(xs, p) == Some(xs[k])
  {
    var r := Find(xs, p);
    var i :| 0 <= i < |xs| && xs[i] == r.value && p(xs[i]) && forall j :: 0 <= j < i ==> !p(xs[j]);
  }

  predicate IsLatest(v: Version)
  {
    v.isLatest
  }

  /** `getCurrentVersion`: the first version flagged latest, else the first
      version; None when the list is empty (the source then returns
      `versions[0]`, which is `undefined`). */
  function CurrentVersion(config: VersionConfig): (r: Option<Version>)
    ensures r.None? <==> config.versions == []
    ensures r.Some? ==> r.value in config.versions
    ensures (exists i :: 0 <= i < |config.versions| && config.versions[i].isLatest)
            ==> r.Some? && r.value.isLatest
    ensures r.Some? && r.value.isLatest ==>
              exists i :: 0 <= i < |config.versions| && config.versions[i] == r.value
                          && forall j :: 0 <= j < i ==> !config.versions[j].isLatest
    ensures config.versions != [] && (forall i :: 0 <= i < |config.versions| ==> !config.versions[i].isLatest)
            ==> r == Some(config.versions[0])
  {
    match Find(config.versions, IsLatest)
    case Some(v) => Some(v)
    case None => if config.versions == [] then None else Some(config.versions[0])
  }

  /** `getVersions`: the configured list, in its order. */
  function AllVersions(config: VersionConfig): (r: seq<Version>)
    ensures |r| == |config.versions|
    ensures forall i :: 0 <= i < |r| ==> r[i] == config.versions[i]
  {
    config.versions
  }

  /** `getVersionById`: the first version whose id is `id`, or None. */
  function VersionById(config: VersionConfig, id: string): (r: Option<Version>)
    ensures r.None? <==> forall i :: 0 <= i < |config.versions| ==> config.versions[i].id != id
    ensures r.Some? ==> r.value.id == id
    ensures r.Some? ==> exists i :: 0 <= i < |config.versions| && config.versions[i] == r.value
                                    && forall j :: 0 <= j < i ==> config.versions[j].id != id
  {
    Find(config.versions, (v: Version) => v.id == id)
  }

  /** Every version the lookups return is one `getVersions` lists, and
      `getVersions` lists the configured versions unchanged: same length,
      same versions at the same positions. */
  lemma LookupsReturnListed(config: VersionConfig, id: string)
    ensures |AllVersions(config)| == |config.versions|
    ensures forall i :: 0 <= i < |config.versions| ==> AllVersions(config)[i] == config.versions[i]
    ensures CurrentVersion(config).Some? ==> CurrentVersion(config).value in AllVersions(config)
    ensures VersionById(config, id).Some? ==> VersionById(config, id).value in AllVersions(config)
  {
  }

  /** When ids are unique, looking a version up by the id of the current
      version finds the current version itself. */
  lemma CurrentVersionById(config: VersionConfig)
    requires CurrentVersion(config).Some?
    requires forall i, j :: 0 <= i < j < |config.versions| ==> config.versions[i].id != config.versions[j].id
    ensures VersionById(config, CurrentVersion(config).value.id) == CurrentVersion(config)
  {
    var c := CurrentVersion(config).value;
    var vs := config.versions;
    var k :| 0 <= k < |vs| && vs[k] == c;
    var r := VersionById(config, c.id);
    var i :| 0 <= i < |vs| && vs[i] == r.value
             && forall j :: 0 <= j < i ==> vs[j].id != c.id;
    assert i == k;
  }
}
